=== FILE: README.md ===
# AORGLU route tables and discovery state, modelled in Dafny

AORGLU is an AODV-family on-demand routing agent for mobile ad-hoc networks
(ns-2), extended with location assistance. This project models the
per-node state the agent keeps and the small transitions on it:

- the route table (`aorglu_rtable`) with one `aorglu_rt_entry` per
  destination: sequence number, u16 hop count with the `INFINITY2 = 0xff`
  sentinel, last valid hop count, next hop, expiry, the state flag
  (`RTF_DOWN`, `RTF_UP`, `RTF_IN_REPAIR`), request counter and request
  timeout, last TTL, the three-slot discovery-latency ring, the precursor
  set and the set of neighbours using the route;
- `rt_update` and `rt_down`, and the freshness rule of sections 6.1 and
  6.2 of RFC 3561 as a separate guard (`Routing.Fresh`) combined with
  `rt_update` in `Routing.GuardedUpdate`;
- the expanding ring search of section 6.4 of RFC 3561 (TTL 5, 7, then the
  network diameter 30), the bound of `RREQ_RETRIES` network-wide searches,
  giving up on the destination for `MAX_RREQ_TIMEOUT` and dropping its
  buffered packets;
- the broadcast-id duplicate cache, the neighbour cache, the LUDP
  ("recently communicated") cache and the drop-front pending-packet queue;
- the protocol constants and the jittered hello interval.

Everything is a pure function over immutable values: maps and sets keyed
by address replace the intrusive lists, time is an explicit `now: real`,
and a timer firing is a call of the corresponding function. The model
covers the declarations of `aorglu/aorglu.h` and `aorglu/aorglu_rtable.h`;
the operation bodies in `aorglu.cc` and `aorglu_rtable.cc` are not part of
this model, so each contract follows the declaration, its comments and
constants, and RFC 3561 where the rule is the protocol's:

- `rt_update` stores exactly the values it is given. A route table could
  instead keep the later of the old and new expiry and apply the freshness
  rule inside the update; the header's signature takes an absolute
  `expire_time`, so the model stores it, and freshness is the separate
  guard.
- The freshness rule (RFC 3561, section 6.2): there is no route yet, or its
  sequence number is not known, or the new sequence number is newer under
  the signed 32-bit rollover comparison of section 6.1, or it is equal and
  the new hop count is smaller. `aorglu_rt_entry` declares no such flag;
  the model adds `validSeq`, the "valid destination sequence number" flag
  of section 6.1: false in a new entry, set by `rt_update`, kept by
  `rt_down`. Since
  `rt_down` sets the hop count to `INFINITY2`, a DOWN route is replaced by
  any real hop count carrying the same sequence number.
- `rt_down` moves the hop count into `rt_last_hop_count` only when it is a
  real count, so the sentinel never overwrites the last valid hop count;
  an entry already DOWN is unchanged; the sequence number, next hop and
  expiry are left alone.
- The expanding ring search (RFC 3561, section 6.4): the first request of
  a discovery uses the last known hop count plus `TTL_INCREMENT` (at most
  `NETWORK_DIAMETER`), or `TTL_START` when no hop count is known; below
  `TTL_THRESHOLD` the TTL grows by `TTL_INCREMENT`; otherwise it is
  `NETWORK_DIAMETER` and counts as a network-wide search in `rt_req_cnt`.
  Once `RREQ_RETRIES` network-wide searches went unanswered the destination
  is given up on: the counter and the last TTL restart, no request is
  allowed for `MAX_RREQ_TIMEOUT`, and its buffered packets are dropped, so
  the search after the pause expands the ring again from its first TTL. Installing a
  route ends its discovery: `rt_req_cnt`, `rt_req_last_ttl` and
  `rt_req_timeout` start over, so every later loss gets a full search.
  The wait between attempts is `2 × TTL × per-hop time` (scaled by the
  network-wide count) capped at `MAX_RREQ_TIMEOUT`; the per-hop time is a
  parameter.
- A neighbour expires `ALLOWED_HELLO_LOSS × HELLO_INTERVAL` = 1.5 s after it
  was last heard, as the comment on `nb_expire` states.
- The broadcast-id cache is a list with new pairs at the head; a lookup
  does not look at expiry, a purge removes pairs whose expiry is at or
  before `now`.
- LUDP cache: an insert records an active entry expiring in
  `LUDP_CACHE_SAVE` seconds; an update refreshes an entry already present;
  `ludpcache_checkactive` marks expired entries inactive; a delete removes.
  The cache's periodic sweep, `LudpCache.LudpPurge`, removes the entries
  whose `LUDP_CACHE_SAVE` lifetime is over.
- The per-route neighbour list and the precursor list are sets: a lookup
  cannot tell duplicates apart, and the model's operations only ever ask
  whether an address is present.
- The pending queue is drop-front: an enqueue into a full queue drops the
  oldest packet; a dequeue for a destination takes its oldest packet.
  The capacity is a parameter, as it is defined in a header that is not
  part of this model.

## Model

| member | source | states |
|---|---|---|
| `Params.HelloJitter` | aorglu/aorglu.h:133-139 | every hello delay drawn from a uniform sample lies in [MinHelloInterval, MaxHelloInterval] = [0.375, 0.425], with the end points reached at samples 0 and 1 |
| `Params.NeighborLifetimeValue` | aorglu/aorglu.h:133-134 | the neighbour lifetime ALLOWED_HELLO_LOSS × HELLO_INTERVAL is 1.5 s, longer than any hello delay |
| `Params.NextTtl` | aorglu/aorglu.h:102-112 | after a request with some TTL, the next ring-search TTL grows by TTL_INCREMENT below TTL_THRESHOLD, is NETWORK_DIAMETER past it, and never exceeds NETWORK_DIAMETER (the first TTL of a discovery is `Discovery.FirstTtl`'s) |
| `RTable.FlagCode` | aorglu/aorglu_rtable.h:116-120 | the state byte is 0 exactly for DOWN, 1 exactly for UP, and never above 2 |
| `RTable.DecodeFlag` | aorglu/aorglu_rtable.h:116-120 | a state byte is a route state iff it is 0, 1 or 2, and decoding inverts the encoding |
| `RTable.FlagRoundTrip` | aorglu/aorglu_rtable.h:116-120 | encoding a state and decoding it gives the state back |
| `RTable.NewEntry` | aorglu/aorglu_rtable.h:89 | a new entry is DOWN with sequence number 0 marked unknown, both hop counts INFINITY2, no request sent, an all-zero latency ring written from index 0, no precursors and no neighbours |
| `RTable.NbInsert` | aorglu/aorglu_rtable.h:92-93 | after inserting a neighbour into a route's list, looking it up finds it; other neighbours and other fields are unchanged |
| `RTable.PcInsert` | aorglu/aorglu_rtable.h:95-96 | after inserting a precursor, looking it up finds it and the list is not empty; other precursors unchanged; inserting a present one is a no-op |
| `RTable.PcDelete` | aorglu/aorglu_rtable.h:97 | after deleting a precursor it is not found; every other precursor is still found |
| `RTable.PcDeleteAll` | aorglu/aorglu_rtable.h:98-99 | after deleting all precursors the list is empty and no lookup succeeds |
| `RTable.PcInsertDeleteRoundTrip` | aorglu/aorglu_rtable.h:95-97 | inserting an absent precursor and deleting it gives the entry back |
| `RTable.RecordLatency` | aorglu/aorglu_rtable.h:131-133 | a recorded latency lands in the slot the index names, no other slot changes, the ring keeps three slots and the index stays in 0..2, wrapping from 2 to 0 |
| `RTable.HistoryHoldsLastThree` | aorglu/aorglu_rtable.h:131-133 | three recordings return the index to its start and leave exactly those three samples in ring order |
| `RTable.RtLookup` | aorglu/aorglu_rtable.h:158 | lookup finds an entry iff the destination is in the table, and the entry found is for that destination |
| `RTable.RtAdd` | aorglu/aorglu_rtable.h:156 | adding an absent destination makes lookup return a fresh entry for it and changes no other entry; adding a present one is refused |
| `RTable.RtDelete` | aorglu/aorglu_rtable.h:157 | after deleting a destination lookup finds nothing for it and every other entry is unchanged |
| `RTable.AddDeleteRoundTrip` | aorglu/aorglu_rtable.h:156-157 | deleting a destination just added gives the table back |
| `Routing.RtUpdate` | aorglu/aorglu.h:326-328 | after an update the entry holds the given sequence number, now known, hop count, next hop and expiry and is UP; its destination, precursors, neighbours, last hop count, history and request state are kept |
| `Routing.RtDown` | aorglu/aorglu.h:329 | after rt_down the entry is DOWN with hop count INFINITY2, a live route's real hop count becomes the last hop count, the sequence number and its validity, the latency ring and the request state are kept, and a DOWN entry is unchanged |
| `Routing.RtDownIdempotent` | aorglu/aorglu.h:329 | bringing a route down twice is the same as once |
| `Routing.RtDownKeepsLastValid` | aorglu/aorglu_rtable.h:110-111 | for every entry, rt_down never replaces a real last hop count by the sentinel, and a live route's real hop count becomes the last one |
| `Routing.SentinelRouteKeepsLastHop` | aorglu/aorglu_rtable.h:110-111 | a route installed with a real hop count, lost, reinstalled with INFINITY2 and lost again still remembers the real count |
| `Routing.SeqNewer` | aorglu/aorglu_rtable.h:108 | the rollover comparison of u32 sequence numbers: newer means above by less than 2^31 or below by more than 2^31 |
| `Routing.SeqNewerAsymmetric` | aorglu/aorglu_rtable.h:108 | under the rollover comparison no u32 sequence number is newer than itself and of two numbers at most one is newer |
| `Routing.SeqNewerIsGreater` | aorglu/aorglu_rtable.h:108 | within half the number space, newer means numerically greater |
| `Routing.Fresh` | aorglu/aorglu.h:326-328 | information is always fresh when no route or no known sequence number is stored, and when it carries a newer number or the same number with fewer hops; fresh information about a known number is never older, and with the same number it has strictly fewer hops |
| `Routing.NewerIsApplied` | aorglu/aorglu.h:326-328 | for a route with a known number, a newer number or the same number with fewer hops is applied, and the route then goes through the new next hop |
| `Routing.StaleIsRefused` | aorglu/aorglu.h:326-328 | information with an older sequence number, or the same one with no fewer hops, is not fresh when the stored number is known, and is fresh when it is not |
| `Routing.DownRouteAcceptsSameSeq` | aorglu/aorglu.h:329 | after rt_down, the same sequence number with any real hop count is fresh again |
| `Routing.GuardedUpdate` | aorglu/aorglu.h:326-329 | a route update is applied iff it is fresh; when applied the entry is UP with the given values and a known sequence number, its last hop count, precursors, neighbours and latency ring are kept and its request state starts over; when refused the table is unchanged; no other destination changes |
| `Routing.AddedEntryAcceptsAnySeq` | aorglu/aorglu_rtable.h:156 | the first route information for an entry rt_add has just created is applied, whatever its sequence number |
| `Routing.GuardedUpdateMonotone` | aorglu/aorglu.h:326-328 | a guarded update never moves a known stored sequence number backwards: it stays known, and equal or newer |
| `Routing.OlderNeverRedirects` | aorglu/aorglu.h:326-328 | information with an older sequence number than a known one never changes the stored next hop, nor anything else |
| `PendingQueue.Enque` | aorglu/aorglu.h:336 | the queue never exceeds its capacity, the new packet is last, and when full exactly the oldest packet is dropped |
| `PendingQueue.EnqueKeepsOrder` | aorglu/aorglu.h:461-464 | below capacity, a destination's buffered packets keep their arrival order with the new one last |
| `PendingQueue.Deque` | aorglu/aorglu.h:337 | dequeue returns the oldest packet for the destination iff one is buffered, and the queue left is the old one with exactly that packet cut out, everything else in place |
| `PendingQueue.DrainFor` | aorglu/aorglu.h:337 | dequeuing a destination until nothing is left yields exactly its packets in arrival order and leaves the others in order |
| `PendingQueue.DequeRemoves` | aorglu/aorglu.h:337 | when buffered packets are distinct, a dequeued packet is no longer buffered |
| `Discovery.ThrottleDecidesSending` | aorglu/aorglu_rtable.h:101-102 | an attempt broadcasts a request or gives up exactly when the entry is not UP and its request timeout has passed; otherwise nothing is sent |
| `Discovery.RequestWindowStaysOpen` | aorglu/aorglu_rtable.h:101 | once a request may go out, it may at every later time |
| `Discovery.FirstTtl` | aorglu/aorglu_rtable.h:111 | the first TTL of a discovery is the last known hop count plus TTL_INCREMENT, at most NETWORK_DIAMETER, or TTL_START when no real hop count is known |
| `Discovery.RequestTtl` | aorglu/aorglu_rtable.h:134 | the next TTL is the first TTL when no request was made, the next ring-search TTL otherwise, and always grows or is NETWORK_DIAMETER |
| `Discovery.RetryWait` | aorglu/aorglu.h:99-100 | the wait before the next request is never negative and never longer than MAX_RREQ_TIMEOUT |
| `Discovery.SendRequest` | aorglu/aorglu.h:95-105 | no request for an UP route or before the request timeout; at RREQ_RETRIES network-wide searches the destination is given up on for MAX_RREQ_TIMEOUT with its buffered packets dropped and the count and last TTL restarted; otherwise a request goes out with the TTL the last TTL and last hop count give, network-wide ones are counted, and the counter fits a u8; no field but the request state changes |
| `Discovery.Schedule` | aorglu/aorglu.h:95-112 | the TTLs of the unanswered requests still to come are all within 1..NETWORK_DIAMETER and exactly RREQ_RETRIES minus those made are network-wide |
| `Discovery.FullSchedule` | aorglu/aorglu.h:102-112 | from a fresh search with no known hop count, unanswered requests go out with TTL 5, 7, 30, 30, 30 |
| `Discovery.NearRediscoverySchedule` | aorglu/aorglu.h:102-112 | a lost route one hop away is searched with TTL 3, 5, 7, 30, 30, 30 |
| `Discovery.FarRediscoverySchedule` | aorglu/aorglu.h:102-112 | a lost route ten hops away is searched with TTL 12, then three network-wide searches |
| `Discovery.StepFollowsSchedule` | aorglu/aorglu.h:95-105 | each allowed request step sends the schedule's next TTL and leaves the rest of it, or gives up exactly when the schedule is exhausted |
| `Discovery.UnansweredFollowsSchedule` | aorglu/aorglu.h:95-112 | retrying unanswered requests as soon as each timeout allows sends exactly the expanding ring schedule, then gives up |
| `Discovery.RetryBound` | aorglu/aorglu.h:95-105 | every discovery from reset request state on an entry without a usable route makes exactly RREQ_RETRIES network-wide searches before giving up, starting from the TTL its last hop count gives, and with no known hop count sends TTL 5, 7, 30, 30, 30 |
| `Discovery.NewDestinationRetries` | aorglu/aorglu.h:95-105 | a destination never seen before gets requests with TTL 5, 7, 30, 30, 30 |
| `Discovery.RediscoveryAfterLoss` | aorglu/aorglu.h:95-105 | after a route is installed and lost, a request may go out at once and the new discovery makes RREQ_RETRIES network-wide searches, starting from the installed hop count plus TTL_INCREMENT |
| `Discovery.GiveUpBacksOff` | aorglu/aorglu.h:99-100 | after giving up, requests are throttled for MAX_RREQ_TIMEOUT, and after it a full expanding ring search starts again from the first TTL |
| `BroadcastIds.IdInsert` | aorglu/aorglu.h:365 | inserting records the pair with expiry now + BCAST_ID_SAVE and adds exactly one record of it |
| `BroadcastIds.IdLookup` | aorglu/aorglu.h:366 | lookup is true iff the exact (source, id) pair is recorded |
| `BroadcastIds.IdPurge` | aorglu/aorglu.h:367 | a purge keeps every record not yet expired as often as it was recorded, removes every expired one, and keeps the survivors in order |
| `BroadcastIds.Seen` | aorglu/aorglu.h:365-366 | a recorded pair is reported as a duplicate and changes nothing; a new pair is recorded once |
| `BroadcastIds.PurgeKeepsUnexpired` | aorglu/aorglu.h:84 | a pair recorded at t is still found after any purge before t + BCAST_ID_SAVE |
| `BroadcastIds.PurgeDropsExpired` | aorglu/aorglu.h:84 | a pair recorded once at t is no longer found after a purge at or after t + BCAST_ID_SAVE |
| `BroadcastIds.SecondDeliveryIsDuplicate` | aorglu/aorglu.h:245-256 | a request delivered twice, with two purges in between at any times before its record expires, is processed once and the final cache holds exactly one record of it |
| `Neighbors.NbLookup` | aorglu/aorglu.h:348 | lookup finds a neighbour iff it is cached, with its expiry |
| `Neighbors.NbInsert` | aorglu/aorglu_rtable.h:56 | after inserting or refreshing a neighbour its expiry is now + 1.5; other neighbours unchanged |
| `Neighbors.NbDelete` | aorglu/aorglu.h:349 | after deleting a neighbour lookup fails; the others are unchanged |
| `Neighbors.NbPurge` | aorglu/aorglu.h:350 | a purge removes and reports exactly the neighbours expired at now, keeping the rest unchanged |
| `Neighbors.NeighborExpiry` | aorglu/aorglu.h:133-134 | a neighbour heard at t survives purges before t + 1.5 and is reported lost by a purge at or after it |
| `Neighbors.PurgeIdempotent` | aorglu/aorglu.h:350 | a second purge at the same time removes nothing |
| `LudpCache.LudpLookup` | aorglu/aorglu.h:356 | lookup finds an entry iff the destination is cached, and it is that destination's |
| `LudpCache.LudpInsert` | aorglu/aorglu.h:355 | after inserting, lookup finds an active entry expiring at now + LUDP_CACHE_SAVE; others unchanged |
| `LudpCache.LudpUpdate` | aorglu/aorglu.h:358 | a cached destination becomes active with a new expiry; an uncached one changes nothing |
| `LudpCache.LudpDelete` | aorglu/aorglu.h:359 | after deleting, lookup finds nothing for the destination; others unchanged |
| `LudpCache.LudpCheckActive` | aorglu/aorglu.h:357 | after the check an entry is active iff it was active and has not expired; no entry is added or removed |
| `LudpCache.LudpPurge` | aorglu/aorglu.h:92-93 | the sweep removes exactly the entries whose lifetime is over and keeps the others unchanged |
| `LudpCache.EntryLastsCacheSave` | aorglu/aorglu.h:92-93 | an entry inserted at t survives sweeps before t + LUDP_CACHE_SAVE, active, and is gone after a sweep at or past it |
| `LudpCache.PurgeKeepsActive` | aorglu/aorglu.h:357 | a sweep keeps every entry the activity check leaves active, and removes only entries the check would mark inactive |
| `LudpCache.ActiveWindow` | aorglu/aorglu.h:92-93 | an entry inserted at t stays active through checks before t + 30 and is inactive after a check at or past it |
| `LudpCache.InsertDeleteRoundTrip` | aorglu/aorglu.h:355-359 | inserting an absent destination and deleting it gives the cache back |

## Left out

- Timers, handlers, events and the scheduler clock: time is a `now`
  argument and a timer firing is a function call.
- Packet transmission and reception (`send*`, `recv*`, `forward*`,
  `sendRepa`, `recvRepa`, `sendLudp`, `recvLudp`), `rt_resolve`,
  `rt_ll_failed`, `handle_link_failure`, tracing and logging, the interface
  queue, the port classifier and `command()`: packet I/O and simulator
  plumbing. `Neighbors.NbPurge` reports the lost
  neighbours, but the link-failure pass over the routes is not modelled.
- `rt_purge` and `loc_purge`: they drive packet forwarding and route
  requests, which are I/O here.
- Local repair (`IN_REPAIR` transitions, `init_route_maintenance`,
  `REPA_RETX_TIME`, `LOC_EXP_TIME`), the location table and the node's
  coordinates: position arithmetic is floating point and
  `aorglu_loctable.h` is not part of this model.
- `PerHopTime`: floating-point averaging over the latency ring; the model
  keeps the ring's bounds and takes the per-hop time as a parameter of
  `Discovery.RetryWait`.
- The link-layer feedback options: compile-time switches of the simulator
  build, not protocol state.
- The pending queue's own packet timeout and capacity constant:
  `aorglu_rqueue.h` is not part of this model; the capacity is a parameter.
- The agent's own sequence number and broadcast id counters.
- Address width: addresses are unbounded integers, compared only for
  equality.
- Discovery.RetryWait: the wait `2 × TTL × per-hop time`, scaled by the
  network-wide count and capped at `MAX_RREQ_TIMEOUT`, is a modelling
  choice after the ns-2 AODV agent; section 6.3 of RFC 3561 asks for binary
  exponential backoff instead, and the header gives `MAX_RREQ_TIMEOUT` only
  as the pause after giving up. The contract promises only the bounds.
- Routing.RtDown: the next hop, the expiry and the set of neighbours using
  the route are kept; section 6.11 of RFC 3561 sets the lifetime to now +
  DELETE_PERIOD, and clearing the neighbour set and notifying precursors
  belong to the error handling, which is packet I/O.
- LudpCache.LudpCheckActive: it only marks expired entries inactive and
  keeps them, so a refresh can reactivate them; removal is the separate
  sweep `LudpCache.LudpPurge`. The header declares no sweep of its own, so
  which of the two the cache timer runs is not part of this model.

=== FILE: bcache.dfy ===
/**
  The broadcast-id cache: (source, broadcast id) pairs of the route
  requests already processed, each kept for BCAST_ID_SAVE seconds, so that
  a flooded request is handled once per node.  The cache is a list with
  new pairs at its head; a lookup ignores expiry, only a purge removes.
 */
module BroadcastIds {
  import opened Types
  import opened Params

  datatype BroadcastId = BroadcastId(src: Addr, id: u32, expire: real)

  type BCache = seq<BroadcastId>

  /** The pair is recorded somewhere in the cache. */
  ghost predicate Holds(c: BCache, src: Addr, bid: u32) {
    exists i :: 0 <= i < |c| && c[i].src == src && c[i].id == bid
  }

  /** How many records the cache holds for the pair. */
  function Records(c: BCache, src: Addr, bid: u32): nat {
    if c == [] then 0
    else (if c[0].src == src && c[0].id == bid then 1 else 0) + Records(c[1..], src, bid)
  }

  /** Records the pair, to expire BCAST_ID_SAVE seconds from `now`. */
  function IdInsert(c: BCache, src: Addr, bid: u32, now: real): (r: BCache)
    ensures |r| == |c| + 1
    ensures r[0] == BroadcastId(src, bid, now + BCAST_ID_SAVE) && r[1..] == c
    ensures Records(r, src, bid) == Records(c, src, bid) + 1
  {
    [BroadcastId(src, bid, now + BCAST_ID_SAVE)] + c
  }

  /** Scans the cache for the pair. */
  function IdLookup(c: BCache, src: Addr, bid: u32): (found: bool)
    ensures found <==> Holds(c, src, bid)
    ensures found <==> Records(c, src, bid) > 0
  {
    if c == [] then false
    else if c[0].src == src && c[0].id == bid then true
    else
      var rest := IdLookup(c[1..], src, bid);
      assert Holds(c[1..], src, bid) ==> Holds(c, src, bid) by {
        if Holds(c[1..], src, bid) {
          var i :| 0 <= i < |c| - 1 && c[1..][i].src == src && c[1..][i].id == bid;
          assert c[i + 1] == c[1..][i];
        }
      }
      rest
  }

  /** `a` is `b` with some records left out, the rest in their order. */
  predicate Subsequence(a: BCache, b: BCache)
    decreases |b|
  {
    if a == [] then true
    else if b == [] then false
    else if a[0] == b[0] then Subsequence(a[1..], b[1..])
    else Subsequence(a, b[1..])
  }

  /** Removes every record that has expired at `now` (expiry at or before
      `now`) and keeps the others, in order and each as often as it was
      recorded. */
  function IdPurge(c: BCache, now: real): (r: BCache)
    ensures |r| <= |c|
    ensures forall x :: x in r <==> x in c && x.expire > now
    ensures forall i :: 0 <= i < |r| ==> r[i].expire > now
    ensures Subsequence(r, c)
    ensures forall x :: multiset(r)[x] == if x.expire > now then multiset(c)[x] else 0
    ensures forall s, b :: Records(r, s, b) <= Records(c, s, b)
  {
    if c == [] then []
    else
      assert c == [c[0]] + c[1..];
      if c[0].expire <= now then IdPurge(c[1..], now)
      else [c[0]] + IdPurge(c[1..], now)
  }

  /** Duplicate suppression for a received request: a pair already
      recorded is a duplicate and leaves the cache as it is; a new pair is
      recorded and processed. */
  function Seen(c: BCache, src: Addr, bid: u32, now: real): (r: (bool, BCache))
    ensures r.0 <==> Holds(c, src, bid)
    ensures r.0 ==> r.1 == c
    ensures !r.0 ==> r.1 == IdInsert(c, src, bid, now) && Records(r.1, src, bid) == 1
    ensures IdLookup(r.1, src, bid)
  {
    if IdLookup(c, src, bid) then (true, c) else (false, IdInsert(c, src, bid, now))
  }

  /** A record inserted at `t` survives every purge before `t + BCAST_ID_SAVE`. */
  lemma {:induction false} PurgeKeepsUnexpired(c: BCache, src: Addr, bid: u32, t: real, now: real)
    requires now < t + BCAST_ID_SAVE
    ensures IdLookup(IdPurge(IdInsert(c, src, bid, t), now), src, bid)
  {
    var r := IdPurge(IdInsert(c, src, bid, t), now);
    assert BroadcastId(src, bid, t + BCAST_ID_SAVE) in IdInsert(c, src, bid, t);
    assert BroadcastId(src, bid, t + BCAST_ID_SAVE) in r;
    var i :| 0 <= i < |r| && r[i] == BroadcastId(src, bid, t + BCAST_ID_SAVE);
    assert Holds(r, src, bid);
  }

  /** A pair not recorded before, once recorded at `t`, is gone after a
      purge at or after `t + BCAST_ID_SAVE` if nothing refreshed it. */
  lemma {:induction false} PurgeDropsExpired(c: BCache, src: Addr, bid: u32, t: real, now: real)
    requires !IdLookup(c, src, bid)
    requires now >= t + BCAST_ID_SAVE
    ensures !IdLookup(IdPurge(IdInsert(c, src, bid, t), now), src, bid)
  {
  }

  /** The same request delivered twice, with two purges in between at any
      times before its record expires, is processed once: the second
      delivery is a duplicate, and the cache holds exactly one record of
      the pair. */
  lemma {:induction false} SecondDeliveryIsDuplicate(c: BCache, src: Addr, bid: u32, t1: real,
                                                     p1: real, p2: real, t2: real)
    requires !IdLookup(c, src, bid)
    requires p1 < t1 + BCAST_ID_SAVE && p2 < t1 + BCAST_ID_SAVE
    ensures var (dup1, c1) := Seen(c, src, bid, t1);
            var c2 := IdPurge(IdPurge(c1, p1), p2);
            var (dup2, c3) := Seen(c2, src, bid, t2);
            && !dup1 && dup2 && c3 == c2
            && Records(c1, src, bid) == 1
            && Records(c3, src, bid) == 1
  {
    var c1 := Seen(c, src, bid, t1).1;
    var x := BroadcastId(src, bid, t1 + BCAST_ID_SAVE);
    assert c1[0] == x;
    var c2 := IdPurge(IdPurge(c1, p1), p2);
    assert x in IdPurge(c1, p1);
    assert x in c2;
    var i :| 0 <= i < |c2| && c2[i] == x;
    assert Holds(c2, src, bid);
  }
}

=== FILE: discovery.dfy ===
/**
  Route discovery from the originator's side: whether a route request may
  go out for an entry, the TTL of the expanding ring search (section 6.4 of
  RFC 3561), the count of network-wide searches, and giving up on the
  destination once RREQ_RETRIES network-wide searches went unanswered.
  The request state is per discovery: installing a route resets it (see
  `Routing.GuardedUpdate`), so every loss of a route starts a new search.
 */
module Discovery {
  import opened Types
  import opened Params
  import opened RTable
  import opened PendingQueue
  import opened Routing

  /** A new route request for the entry may go out at `now`: the entry is
      not an UP route (its `rt_flags` is not RTF_UP) and `rt_req_timeout`
      has passed. */
  predicate MayRequest(e: RtEntry, now: real) {
    e.flag != Up && e.reqTimeout <= now
  }

  /** Once a request may go out, it may at every later time too. */
  lemma RequestWindowStaysOpen(e: RtEntry, now: real, later: real)
    requires MayRequest(e, now) && now <= later
    ensures MayRequest(e, later)
  {
  }

  /** The TTL of the first request of a discovery (section 6.4 of RFC 3561):
      the last known hop count plus TTL_INCREMENT, at most NETWORK_DIAMETER,
      when the entry remembers one; TTL_START otherwise. */
  function FirstTtl(lastHopCount: int): (ttl: nat)
    ensures 0 < ttl <= NETWORK_DIAMETER
    ensures !(0 <= lastHopCount < INFINITY2 as int) ==> ttl == TTL_START
    ensures 0 <= lastHopCount < INFINITY2 as int ==>
              ttl == if lastHopCount + TTL_INCREMENT < NETWORK_DIAMETER
                     then lastHopCount + TTL_INCREMENT else NETWORK_DIAMETER
  {
    if 0 <= lastHopCount < INFINITY2 as int then
      if lastHopCount + TTL_INCREMENT < NETWORK_DIAMETER
      then lastHopCount + TTL_INCREMENT else NETWORK_DIAMETER
    else TTL_START
  }

  /** The TTL of the next request, from the TTL of the last one (0 before
      the first) and the entry's last known hop count. */
  function RequestTtl(lastTtl: nat, lastHopCount: int): (ttl: nat)
    ensures 0 < ttl <= NETWORK_DIAMETER
    ensures ttl > lastTtl || ttl == NETWORK_DIAMETER
    ensures lastTtl == 0 ==> ttl == FirstTtl(lastHopCount)
    ensures lastTtl > 0 ==> ttl == NextTtl(lastTtl)
  {
    if lastTtl == 0 then FirstTtl(lastHopCount) else NextTtl(lastTtl)
  }

  /** What one attempt to send a route request does. */
  datatype Step =
    | RouteUp                                        // a usable route exists: nothing to send
    | Throttled                                      // the previous request has not timed out
    | Unreachable(entry: RtEntry, dropped: seq<Packet>, queue: Queue)
                                                     // given up: buffered packets dropped
    | Broadcast(ttl: nat, entry: RtEntry)            // a request goes out with this TTL

  /** How long to wait for a reply before retrying, capped at
      MAX_RREQ_TIMEOUT: twice the per-hop round trip times the TTL, scaled by
      the number of network-wide searches so far.  `perHop` is the per-hop
      time estimate the agent derives from the latency history. */
  function RetryWait(ttl: nat, cnt: nat, perHop: real): (w: real)
    requires perHop >= 0.0
    ensures 0.0 <= w <= MAX_RREQ_TIMEOUT
  {
    var base := 2.0 * ttl as real * perHop;
    var scaled := if cnt > 0 then base * cnt as real else base;
    if scaled > MAX_RREQ_TIMEOUT then MAX_RREQ_TIMEOUT else scaled
  }

  /** One attempt, at time `now`, to send a route request for the entry's
      destination, with `q` the pending-packet queue. */
  function SendRequest(e: RtEntry, q: Queue, now: real, perHop: real): (s: Step)
    requires EntryOk(e) && e.reqCnt <= RREQ_RETRIES && perHop >= 0.0
    ensures s.RouteUp? <==> e.flag == Up
    ensures s.Throttled? <==> e.flag != Up && now < e.reqTimeout
    ensures s.Unreachable? <==> MayRequest(e, now) && e.reqCnt == RREQ_RETRIES
    ensures s.Unreachable? ==>
              && s.entry.reqCnt == 0 && s.entry.reqLastTtl == 0
              && s.entry.reqTimeout == now + MAX_RREQ_TIMEOUT
              && s.dropped == For(q, e.dst)
              && For(s.queue, e.dst) == []
              && s.queue == Except(q, e.dst)
    ensures s.Broadcast? ==>
              && s.ttl == RequestTtl(e.reqLastTtl, e.lastHopCount)
              && s.ttl <= NETWORK_DIAMETER
              && s.entry.reqLastTtl == s.ttl
              && s.entry.reqCnt == (if s.ttl == NETWORK_DIAMETER then e.reqCnt + 1 else e.reqCnt)
              && s.entry.reqCnt <= RREQ_RETRIES
              && now <= s.entry.reqTimeout <= now + MAX_RREQ_TIMEOUT
    ensures (s.Unreachable? || s.Broadcast?) ==>
              && EntryOk(s.entry)
              && s.entry.dst == e.dst && s.entry.flag == e.flag && s.entry.seqno == e.seqno
              && s.entry.lastHopCount == e.lastHopCount
    ensures (s.Unreachable? || s.Broadcast?) ==>
              s.entry.(reqTimeout := e.reqTimeout, reqCnt := e.reqCnt, reqLastTtl := e.reqLastTtl) == e
  {
    if e.flag == Up then RouteUp
    else if now < e.reqTimeout then Throttled
    else if e.reqCnt >= RREQ_RETRIES then
      var (dropped, left) := DrainFor(q, e.dst);
      NoneLeftFor(q, e.dst);
      Unreachable(e.(reqTimeout := now + MAX_RREQ_TIMEOUT, reqCnt := 0, reqLastTtl := 0), dropped, left)
    else
      var ttl := RequestTtl(e.reqLastTtl, e.lastHopCount);
      var cnt := if ttl == NETWORK_DIAMETER then e.reqCnt + 1 else e.reqCnt;
      Broadcast(ttl, e.(reqLastTtl := ttl, reqCnt := cnt,
                         reqTimeout := now + RetryWait(ttl, cnt, perHop)))
  }

  /** The throttle decides whether an attempt does anything: exactly when a
      request may go out, the attempt broadcasts a request or gives the
      destination up; otherwise it finds the route UP or is throttled. */
  lemma ThrottleDecidesSending(e: RtEntry, q: Queue, now: real, perHop: real)
    requires EntryOk(e) && e.reqCnt <= RREQ_RETRIES && perHop >= 0.0
    ensures var s := SendRequest(e, q, now, perHop);
      MayRequest(e, now) <==> s.Broadcast? || s.Unreachable?
  {
  }

  /** The TTLs of the requests still to be sent, from a last TTL of
      `lastTtl` with `cnt` network-wide searches made and `lastHopCount` the
      entry's last known hop count, if none is answered. */
  function Schedule(lastTtl: nat, cnt: nat, lastHopCount: int): (ttls: seq<nat>)
    requires lastTtl <= NETWORK_DIAMETER && cnt <= RREQ_RETRIES
    ensures forall i :: 0 <= i < |ttls| ==> 0 < ttls[i] <= NETWORK_DIAMETER
    ensures Count(ttls, NETWORK_DIAMETER) == RREQ_RETRIES - cnt
    decreases RREQ_RETRIES - cnt, NETWORK_DIAMETER - lastTtl
  {
    if cnt == RREQ_RETRIES then []
    else
      var ttl := RequestTtl(lastTtl, lastHopCount);
      [ttl] + Schedule(ttl, if ttl == NETWORK_DIAMETER then cnt + 1 else cnt, lastHopCount)
  }

  function Count(s: seq<nat>, x: nat): nat {
    if s == [] then 0 else (if s[0] == x then 1 else 0) + Count(s[1..], x)
  }

  /** From a fresh search with no known hop count, unanswered requests go
      out with TTL 5, then 7, then three network-wide searches of TTL 30. */
  lemma FullSchedule()
    ensures Schedule(0, 0, INFINITY2 as int) == [5, 7, 30, 30, 30]
  {
    assert Schedule(30, 3, 0xff) == [];
    assert Schedule(30, 2, 0xff) == [30];
    assert Schedule(30, 1, 0xff) == [30, 30];
    assert Schedule(7, 0, 0xff) == [30, 30, 30];
    assert Schedule(5, 0, 0xff) == [7, 30, 30, 30];
  }

  /** A lost route that was one hop away is searched for with TTL 3 first. */
  lemma NearRediscoverySchedule()
    ensures Schedule(0, 0, 1) == [3, 5, 7, 30, 30, 30]
  {
    assert Schedule(30, 3, 1) == [];
    assert Schedule(30, 2, 1) == [30];
    assert Schedule(30, 1, 1) == [30, 30];
    assert Schedule(7, 0, 1) == [30, 30, 30];
    assert Schedule(5, 0, 1) == [7, 30, 30, 30];
    assert Schedule(3, 0, 1) == [5, 7, 30, 30, 30];
  }

  /** A lost route that was ten hops away is searched for with TTL 12 and
      then network-wide. */
  lemma FarRediscoverySchedule()
    ensures Schedule(0, 0, 10) == [12, 30, 30, 30]
  {
    assert Schedule(30, 3, 10) == [];
    assert Schedule(30, 2, 10) == [30];
    assert Schedule(30, 1, 10) == [30, 30];
    assert Schedule(12, 0, 10) == [30, 30, 30];
  }

  /** One allowed request step follows the schedule: it either sends the
      schedule's next TTL and leaves the rest of the schedule to come, or the
      schedule is exhausted and the destination is given up on. */
  lemma StepFollowsSchedule(e: RtEntry, q: Queue, now: real, perHop: real)
    requires EntryOk(e) && e.reqCnt <= RREQ_RETRIES && perHop >= 0.0
    requires e.reqLastTtl <= NETWORK_DIAMETER
    requires MayRequest(e, now)
    ensures var s := SendRequest(e, q, now, perHop);
      && (s.Unreachable? <==> Schedule(e.reqLastTtl, e.reqCnt, e.lastHopCount) == [])
      && (s.Broadcast? ==>
            Schedule(e.reqLastTtl, e.reqCnt, e.lastHopCount) ==
              [s.ttl] + Schedule(s.entry.reqLastTtl, s.entry.reqCnt, e.lastHopCount))
  {
  }

  /** Giving up leaves the destination alone for MAX_RREQ_TIMEOUT: every
      attempt before that is throttled, and the first one after it starts a
      fresh count of network-wide searches. */
  lemma GiveUpBacksOff(e: RtEntry, q: Queue, now: real, later: real, perHop: real)
    requires EntryOk(e) && e.reqCnt <= RREQ_RETRIES && perHop >= 0.0
    requires SendRequest(e, q, now, perHop).Unreachable?
    ensures var e' := SendRequest(e, q, now, perHop).entry;
      && (now <= later < now + MAX_RREQ_TIMEOUT ==> SendRequest(e', q, later, perHop).Throttled?)
      && (later >= now + MAX_RREQ_TIMEOUT ==> SendRequest(e', q, later, perHop).Broadcast?)
    ensures var e' := SendRequest(e, q, now, perHop).entry;
      later >= now + MAX_RREQ_TIMEOUT ==>
        Unanswered(e', q, later, perHop) == Schedule(0, 0, e.lastHopCount)
  {
    var e' := SendRequest(e, q, now, perHop).entry;
    if later >= now + MAX_RREQ_TIMEOUT {
      RetryBound(e', q, later, perHop);
    }
  }

  /** The TTLs of the requests sent when none is ever answered, each retry
      made as soon as the previous request's timeout allows, until the
      destination is given up on. */
  function Unanswered(e: RtEntry, q: Queue, now: real, perHop: real): (ttls: seq<nat>)
    requires EntryOk(e) && e.reqCnt <= RREQ_RETRIES && perHop >= 0.0
    requires e.reqLastTtl <= NETWORK_DIAMETER && MayRequest(e, now)
    decreases RREQ_RETRIES - e.reqCnt, NETWORK_DIAMETER - e.reqLastTtl
  {
    match SendRequest(e, q, now, perHop)
    case Broadcast(ttl, next) => [ttl] + Unanswered(next, q, next.reqTimeout, perHop)
    case _ => []
  }

  /** Unanswered retries send exactly the expanding ring schedule. */
  lemma {:induction false} UnansweredFollowsSchedule(e: RtEntry, q: Queue, now: real, perHop: real)
    requires EntryOk(e) && e.reqCnt <= RREQ_RETRIES && perHop >= 0.0
    requires e.reqLastTtl <= NETWORK_DIAMETER && MayRequest(e, now)
    ensures Unanswered(e, q, now, perHop) == Schedule(e.reqLastTtl, e.reqCnt, e.lastHopCount)
    decreases RREQ_RETRIES - e.reqCnt, NETWORK_DIAMETER - e.reqLastTtl
  {
    StepFollowsSchedule(e, q, now, perHop);
    var s := SendRequest(e, q, now, perHop);
    if s.Broadcast? {
      UnansweredFollowsSchedule(s.entry, q, s.entry.reqTimeout, perHop);
    }
  }

  /** Every discovery from reset request state, on any entry without a
      usable route, sends RREQ_RETRIES network-wide searches before it gives
      up, starting from the TTL its last known hop count gives; with no
      known hop count that is five requests, with TTL 5, 7 and then three
      network-wide ones. */
  lemma {:induction false} RetryBound(e: RtEntry, q: Queue, now: real, perHop: real)
    requires EntryOk(e) && perHop >= 0.0 && e.flag != Up
    requires e.reqCnt == 0 && e.reqLastTtl == 0 && e.reqTimeout <= now
    ensures Unanswered(e, q, now, perHop) == Schedule(0, 0, e.lastHopCount)
    ensures Count(Unanswered(e, q, now, perHop), NETWORK_DIAMETER) == RREQ_RETRIES
    ensures |Unanswered(e, q, now, perHop)| > 0
    ensures Unanswered(e, q, now, perHop)[0] == FirstTtl(e.lastHopCount)
    ensures !(0 <= e.lastHopCount < INFINITY2 as int) ==>
              Unanswered(e, q, now, perHop) == [5, 7, 30, 30, 30]
  {
    UnansweredFollowsSchedule(e, q, now, perHop);
    if !(0 <= e.lastHopCount < INFINITY2 as int) {
      FullSchedule();
      assert Schedule(0, 0, e.lastHopCount) == Schedule(0, 0, INFINITY2 as int) by {
        ScheduleIgnoresUnknownHops(0, 0, e.lastHopCount);
      }
    }
  }

  /** Any hop count that is not a real one schedules like the sentinel. */
  lemma {:induction false} ScheduleIgnoresUnknownHops(lastTtl: nat, cnt: nat, h: int)
    requires lastTtl <= NETWORK_DIAMETER && cnt <= RREQ_RETRIES
    requires !(0 <= h < INFINITY2 as int)
    ensures Schedule(lastTtl, cnt, h) == Schedule(lastTtl, cnt, INFINITY2 as int)
    decreases RREQ_RETRIES - cnt, NETWORK_DIAMETER - lastTtl
  {
    if cnt < RREQ_RETRIES {
      var ttl := RequestTtl(lastTtl, h);
      ScheduleIgnoresUnknownHops(ttl, if ttl == NETWORK_DIAMETER then cnt + 1 else cnt, h);
    }
  }

  /** A destination never seen before is searched for five times. */
  lemma NewDestinationRetries(dst: Addr, q: Queue, now: real, perHop: real)
    requires perHop >= 0.0 && now >= 0.0
    ensures Unanswered(NewEntry(dst), q, now, perHop) == [5, 7, 30, 30, 30]
  {
    RetryBound(NewEntry(dst), q, now, perHop);
  }

  /** A route installed and later lost gets a full discovery: whatever
      requests went out before it was found, losing it leaves RREQ_RETRIES
      network-wide searches to make, the first request using the installed
      hop count plus TTL_INCREMENT when that count is real. */
  lemma {:induction false} RediscoveryAfterLoss(t: Table, dst: Addr, seqnum: u32, metric: u16, nexthop: Addr,
                                                expireTime: real, q: Queue, now: real, perHop: real)
    requires TableOk(t) && perHop >= 0.0 && now >= 0.0
    requires GuardedUpdate(t, dst, seqnum, metric, nexthop, expireTime).1
    ensures var e := RtDown(GuardedUpdate(t, dst, seqnum, metric, nexthop, expireTime).0[dst]);
      && MayRequest(e, now)
      && Count(Unanswered(e, q, now, perHop), NETWORK_DIAMETER) == RREQ_RETRIES
      && (metric != INFINITY2 ==> Unanswered(e, q, now, perHop)[0] == FirstTtl(metric as int))
  {
    var r := GuardedUpdate(t, dst, seqnum, metric, nexthop, expireTime).0;
    assert EntryOk(r[dst]);
    var e := RtDown(r[dst]);
    RetryBound(e, q, now, perHop);
  }
}

=== FILE: ludpcache.dfy ===
/**
  The "recently communicated" (LUDP) cache: the destinations this node has
  exchanged data with, each with an active flag and an expiry
  LUDP_CACHE_SAVE seconds after it was last refreshed.  Location updates
  are sent only to active entries.
 */
module LudpCache {
  import opened Types
  import opened Params

  datatype LudpEntry = LudpEntry(dst: Addr, active: bool, expire: real)

  type LCache = map<Addr, LudpEntry>

  /** Each entry is stored under its own destination. */
  predicate CacheOk(c: LCache) {
    forall d :: d in c ==> c[d].dst == d
  }

  function LudpLookup(c: LCache, id: Addr): (r: Option<LudpEntry>)
    requires CacheOk(c)
    ensures r.Some? <==> id in c
    ensures r.Some? ==> r.value.dst == id
  {
    if id in c then Some(c[id]) else None
  }

  /** Whether location updates should go to `id`. */
  predicate IsActive(c: LCache, id: Addr) {
    id in c && c[id].active
  }

  /** Records `id` as active, to expire LUDP_CACHE_SAVE seconds from `now`. */
  function LudpInsert(c: LCache, id: Addr, now: real): (r: LCache)
    requires CacheOk(c)
    ensures CacheOk(r)
    ensures LudpLookup(r, id) == Some(LudpEntry(id, true, now + LUDP_CACHE_SAVE))
    ensures IsActive(r, id)
    ensures r.Keys == c.Keys + {id}
    ensures forall d :: d in c && d != id ==> r[d] == c[d]
  {
    c[id := LudpEntry(id, true, now + LUDP_CACHE_SAVE)]
  }

  /** Refreshes an existing entry for `id`: active again, with a new expiry.
      A destination not in the cache is left out. */
  function LudpUpdate(c: LCache, id: Addr, now: real): (r: LCache)
    requires CacheOk(c)
    ensures CacheOk(r)
    ensures r.Keys == c.Keys
    ensures id in c ==> IsActive(r, id) && r[id].expire == now + LUDP_CACHE_SAVE
    ensures id !in c ==> r == c
    ensures forall d :: d in c && d != id ==> r[d] == c[d]
  {
    if id in c then c[id := LudpEntry(id, true, now + LUDP_CACHE_SAVE)] else c
  }

  /** Forgets `id`; the other entries are untouched. */
  function LudpDelete(c: LCache, id: Addr): (r: LCache)
    requires CacheOk(c)
    ensures CacheOk(r)
    ensures LudpLookup(r, id).None?
    ensures r.Keys == c.Keys - {id}
    ensures forall d :: d in r ==> r[d] == c[d]
  {
    c - {id}
  }

  /** Marks inactive every entry whose expiry is at or before `now`; the
      entries stay, so a later refresh reactivates them. */
  function LudpCheckActive(c: LCache, now: real): (r: LCache)
    requires CacheOk(c)
    ensures CacheOk(r)
    ensures r.Keys == c.Keys
    ensures forall d :: d in c ==> (IsActive(r, d) <==> c[d].active && c[d].expire > now)
    ensures forall d :: d in c ==> r[d].expire == c[d].expire
  {
    map d | d in c :: if c[d].expire <= now then c[d].(active := false) else c[d]
  }

  /** The cache sweep: removes every entry whose expiry is at or before
      `now` and keeps the others unchanged. */
  function LudpPurge(c: LCache, now: real): (r: LCache)
    requires CacheOk(c)
    ensures CacheOk(r)
    ensures forall d :: d in r <==> d in c && c[d].expire > now
    ensures forall d :: d in r ==> r[d] == c[d]
  {
    map d | d in c && c[d].expire > now :: c[d]
  }

  /** An entry inserted at `t` and not refreshed survives every sweep
      before `t + LUDP_CACHE_SAVE` and is gone after one at or past it. */
  lemma EntryLastsCacheSave(c: LCache, id: Addr, t: real, now: real)
    requires CacheOk(c)
    ensures now < t + LUDP_CACHE_SAVE ==> IsActive(LudpPurge(LudpInsert(c, id, t), now), id)
    ensures now >= t + LUDP_CACHE_SAVE ==> LudpLookup(LudpPurge(LudpInsert(c, id, t), now), id).None?
  {
  }

  /** A sweep after an activity check removes exactly the entries the
      check made inactive for expiry, and keeps every active one. */
  lemma PurgeKeepsActive(c: LCache, now: real)
    requires CacheOk(c)
    ensures forall d :: IsActive(LudpCheckActive(c, now), d) ==> d in LudpPurge(c, now)
    ensures forall d :: d in LudpPurge(c, now) ==> IsActive(LudpCheckActive(c, now), d) == c[d].active
  {
  }

  /** A destination inserted at `t` stays active through every check before
      `t + LUDP_CACHE_SAVE` and is inactive after a check at or past it. */
  lemma ActiveWindow(c: LCache, id: Addr, t: real, now: real)
    requires CacheOk(c)
    ensures now < t + LUDP_CACHE_SAVE ==> IsActive(LudpCheckActive(LudpInsert(c, id, t), now), id)
    ensures now >= t + LUDP_CACHE_SAVE ==> !IsActive(LudpCheckActive(LudpInsert(c, id, t), now), id)
  {
  }

  /** Inserting then deleting a destination not in the cache gives the cache back. */
  lemma InsertDeleteRoundTrip(c: LCache, id: Addr, now: real)
    requires CacheOk(c) && id !in c
    ensures LudpDelete(LudpInsert(c, id, now), id) == c
  {
    assert LudpDelete(LudpInsert(c, id, now), id).Keys == c.Keys;
  }
}

=== FILE: ncache.dfy ===
/**
  The agent's neighbour cache: one-hop neighbours and when each is to be
  considered lost, ALLOWED_HELLO_LOSS hello intervals after it was last
  heard.  A purge removes the lost neighbours and reports them, so that
  the agent can handle the broken links.
 */
module Neighbors {
  import opened Types
  import opened Params
  import opened RTable

  /** Neighbour address to expiry time. */
  type NCache = map<Addr, real>

  function NbLookup(c: NCache, a: Addr): (r: Option<Neighbor>)
    ensures r.Some? <==> a in c
    ensures r.Some? ==> r.value.addr == a && r.value.expire == c[a]
  {
    if a in c then Some(Neighbor(a, c[a])) else None
  }

  /** Adds neighbour `a`, or refreshes it when already present: either way
      it now expires NEIGHBOR_LIFETIME after `now`. */
  function NbInsert(c: NCache, a: Addr, now: real): (r: NCache)
    ensures NbLookup(r, a) == Some(Neighbor(a, now + NEIGHBOR_LIFETIME))
    ensures NbLookup(r, a).value.expire == now + 1.5
    ensures r.Keys == c.Keys + {a}
    ensures forall b :: b in c && b != a ==> r[b] == c[b]
  {
    c[a := now + NEIGHBOR_LIFETIME]
  }

  /** Forgets neighbour `a`; the others are untouched. */
  function NbDelete(c: NCache, a: Addr): (r: NCache)
    ensures NbLookup(r, a).None?
    ensures r.Keys == c.Keys - {a}
    ensures forall b :: b in r ==> r[b] == c[b]
  {
    c - {a}
  }

  /** Removes every neighbour whose expiry is at or before `now` and
      returns the removed addresses, each of which is a lost link. */
  function NbPurge(c: NCache, now: real): (r: (NCache, set<Addr>))
    ensures forall a :: a in r.1 <==> a in c && c[a] <= now
    ensures forall a :: a in r.0 <==> a in c && c[a] > now
    ensures forall a :: a in r.0 ==> r.0[a] == c[a]
  {
    var lost := set a | a in c && c[a] <= now;
    (c - lost, lost)
  }

  /** A neighbour heard at `t` is kept by every purge before
      `t + NEIGHBOR_LIFETIME`, and one not heard again is reported lost by
      the first purge at or after it. */
  lemma NeighborExpiry(c: NCache, a: Addr, t: real, now: real)
    ensures now < t + NEIGHBOR_LIFETIME ==>
              a in NbPurge(NbInsert(c, a, t), now).0 && a !in NbPurge(NbInsert(c, a, t), now).1
    ensures now >= t + NEIGHBOR_LIFETIME ==>
              a !in NbPurge(NbInsert(c, a, t), now).0 && a in NbPurge(NbInsert(c, a, t), now).1
  {
  }

  /** Purging twice at the same time removes nothing more. */
  lemma PurgeIdempotent(c: NCache, now: real)
    ensures NbPurge(NbPurge(c, now).0, now).0 == NbPurge(c, now).0
    ensures NbPurge(NbPurge(c, now).0, now).1 == {}
  {
    var r := NbPurge(c, now).0;
    assert NbPurge(r, now).0.Keys == r.Keys;
  }
}

=== FILE: params.dfy ===
/**
  Protocol parameters of the agent: lifetimes, retry bounds, the expanding
  ring search constants and the hello timing.  Times are in seconds.
 */
module Params {

  /** How long a broadcast id is remembered. */
  const BCAST_ID_SAVE: real := 6.0

  /** Lifetime of an entry of the recently-communicated (LUDP) cache. */
  const LUDP_CACHE_SAVE: real := 30.0

  /** Network-wide searches made before the destination is given up on. */
  const RREQ_RETRIES: nat := 3
  /** How long a destination is left alone after it was given up on. */
  const MAX_RREQ_TIMEOUT: real := 10.0

  /* Expanding ring search */
  const TTL_START: nat := 5
  const TTL_THRESHOLD: nat := 7
  const TTL_INCREMENT: nat := 2
  const NETWORK_DIAMETER: nat := 30

  /* Hello timing */
  const HELLO_INTERVAL: real := 0.5
  const ALLOWED_HELLO_LOSS: nat := 3

  /* Listed for completeness: these time route lifetimes, local repair,
     location updates and replies, which this model leaves out. */
  const MY_ROUTE_TIMEOUT: real := 10.0
  const ACTIVE_ROUTE_TIMEOUT: real := 10.0
  const REV_ROUTE_LIFE: real := 6.0
  const REPA_RETX_TIME: real := 0.8
  const LOC_EXP_TIME: real := 3.0
  const NODE_TRAVERSAL_TIME: real := 0.03
  const LOCAL_REPAIR_WAIT_TIME: real := 0.15
  const RREP_WAIT_TIME: real := 1.0
  const BAD_LINK_LIFETIME: real := 3.0
  const LUDP_INTERVAL: real := 5.0

  const MaxHelloInterval: real := 0.85 * HELLO_INTERVAL
  const MinHelloInterval: real := 0.75 * HELLO_INTERVAL

  /** How long a neighbour stays in the cache without being heard again. */
  const NEIGHBOR_LIFETIME: real := ALLOWED_HELLO_LOSS as real * HELLO_INTERVAL

  /**
    The delay before the next hello, drawn uniformly from
    [MinHelloInterval, MaxHelloInterval]; `u` is the uniform sample in [0, 1]
    the simulator's random source would supply.
   */
  function HelloJitter(u: real): (interval: real)
    requires 0.0 <= u <= 1.0
    ensures MinHelloInterval <= interval <= MaxHelloInterval
    ensures 0.375 <= interval <= 0.425
    ensures u == 0.0 ==> interval == MinHelloInterval
    ensures u == 1.0 ==> interval == MaxHelloInterval
  {
    MinHelloInterval + (MaxHelloInterval - MinHelloInterval) * u
  }

  /** The neighbour lifetime is three lost hellos of half a second. */
  lemma NeighborLifetimeValue()
    ensures NEIGHBOR_LIFETIME == 1.5
    ensures NEIGHBOR_LIFETIME > MaxHelloInterval
  {
  }

  /**
    The TTL of the route request after one sent with `lastTtl`, in an
    expanding ring search (section 6.4 of RFC 3561): while the last TTL is
    below TTL_THRESHOLD it grows by TTL_INCREMENT; from the threshold on
    every request is network-wide.  A discovery's first TTL comes from the
    last known hop count instead; the `lastTtl == 0` case, TTL_START, only
    makes the function total.
   */
  function NextTtl(lastTtl: nat): (ttl: nat)
    ensures 0 < ttl <= NETWORK_DIAMETER
    ensures lastTtl == 0 ==> ttl == TTL_START
    ensures 0 < lastTtl < TTL_THRESHOLD ==> ttl == lastTtl + TTL_INCREMENT
    ensures lastTtl >= TTL_THRESHOLD ==> ttl == NETWORK_DIAMETER
    ensures ttl > lastTtl || ttl == NETWORK_DIAMETER
  {
    if lastTtl == 0 then TTL_START
    else if lastTtl < TTL_THRESHOLD then lastTtl + TTL_INCREMENT
    else NETWORK_DIAMETER
  }
}

=== FILE: routing.dfy ===
/**
  The agent's route table management: `rt_update` and `rt_down`, and the
  freshness rule of sections 6.1 and 6.2 of RFC 3561 that decides whether
  new route information may overwrite what the table holds.  The rule is a
  separate guard, `Fresh`, combined with `rt_update` in `GuardedUpdate`.
 */
module Routing {
  import opened Types
  import opened RTable

  /* ---------------- rt_update / rt_down ---------------- */

  /** Installs a route: the given sequence number, now known, hop count,
      next hop and expiry, state UP.  Destination, precursors, neighbours,
      last hop count, history and request state are kept. */
  function RtUpdate(e: RtEntry, seqnum: u32, metric: u16, nexthop: Addr, expireTime: real): (r: RtEntry)
    requires EntryOk(e)
    ensures EntryOk(r)
    ensures r.flag == Up && FlagCode(r.flag) == 1
    ensures r.seqno == seqnum && r.validSeq
    ensures r.hops == metric && r.nexthop == nexthop
    ensures r.expire == expireTime
    ensures r.dst == e.dst && r.precursors == e.precursors && r.nbList == e.nbList
    ensures r.lastHopCount == e.lastHopCount
    ensures r.discLatency == e.discLatency && r.histIndx == e.histIndx
    ensures r.reqCnt == e.reqCnt && r.reqTimeout == e.reqTimeout && r.reqLastTtl == e.reqLastTtl
  {
    e.(seqno := seqnum, validSeq := true, hops := metric, flag := Up, nexthop := nexthop,
       expire := expireTime)
  }

  /** Invalidates a route: state DOWN and hop count INFINITY2.  A real hop
      count the route had becomes its last valid hop count; a route that
      carried the sentinel leaves the last valid count as it was.  The
      sequence number and whether it is known are kept for later freshness
      comparisons.  An entry already DOWN is left as it is. */
  function RtDown(e: RtEntry): (r: RtEntry)
    requires EntryOk(e)
    ensures EntryOk(r)
    ensures r.flag == Down && r.hops == INFINITY2
    ensures e.flag != Down && e.hops != INFINITY2 ==> r.lastHopCount == e.hops
    ensures r.lastHopCount == e.lastHopCount || r.lastHopCount == e.hops
    ensures e.flag == Down ==> r == e
    ensures r.seqno == e.seqno && r.validSeq == e.validSeq
    ensures r.dst == e.dst && r.nexthop == e.nexthop && r.expire == e.expire
    ensures r.precursors == e.precursors && r.nbList == e.nbList
    ensures r.reqCnt == e.reqCnt && r.reqTimeout == e.reqTimeout && r.reqLastTtl == e.reqLastTtl
    ensures r.discLatency == e.discLatency && r.histIndx == e.histIndx
  {
    if e.flag == Down then e
    else
      var last := if e.hops != INFINITY2 then e.hops as int else e.lastHopCount;
      e.(lastHopCount := last, hops := INFINITY2, flag := Down)
  }

  /** Bringing a route down twice is the same as once. */
  lemma RtDownIdempotent(e: RtEntry)
    requires EntryOk(e)
    ensures RtDown(RtDown(e)) == RtDown(e)
  {
  }

  /** Once an entry knows a real last hop count, bringing it down never
      replaces that with the sentinel, whatever its state and hop count; a
      usable route with a real hop count hands that count on. */
  lemma RtDownKeepsLastValid(e: RtEntry)
    requires EntryOk(e)
    ensures e.lastHopCount != INFINITY2 ==> RtDown(e).lastHopCount != INFINITY2
    ensures e.flag != Down && e.hops != INFINITY2 ==>
              RtDown(e).lastHopCount == e.hops != INFINITY2
  {
  }

  /** A route installed with a real hop count, lost, reinstalled with the
      sentinel hop count and lost again still remembers the real count. */
  lemma SentinelRouteKeepsLastHop(e: RtEntry, s1: u32, m: u16, s2: u32, n1: Addr, n2: Addr, x1: real, x2: real)
    requires EntryOk(e) && m != INFINITY2
    ensures RtDown(RtUpdate(RtDown(RtUpdate(e, s1, m, n1, x1)), s2, INFINITY2, n2, x2)).lastHopCount == m
  {
  }

  /* ---------------- freshness (RFC 3561, sections 6.1 and 6.2) ---------------- */

  /** `a` is newer than `b` under the signed 32-bit rollover comparison of
      section 6.1 of RFC 3561: (a - b) taken modulo 2^32 and read as a signed
      32-bit integer is positive.  Without the modulus: `a` is above `b` by
      less than half the number space, or below it by more than half. */
  predicate SeqNewer(a: u32, b: u32)
    ensures SeqNewer(a, b) <==>
              (a > b && a - b < 0x8000_0000) || (a < b && b - a > 0x8000_0000)
  {
    0 < (a - b) % TWO_TO_32 < 0x8000_0000
  }

  /** No sequence number is newer than itself, and of two different numbers
      at most one is newer than the other. */
  lemma SeqNewerAsymmetric(a: u32, b: u32)
    ensures !SeqNewer(a, a)
    ensures SeqNewer(a, b) ==> !SeqNewer(b, a)
  {
  }

  /** Without wrap-around inside the window, "newer" is plain "greater". */
  lemma SeqNewerIsGreater(a: u32, b: u32)
    requires b <= a < b + 0x8000_0000
    ensures SeqNewer(a, b) <==> a > b
  {
  }

  /** Whether route information (seqnum, metric) may replace the stored
      route `cur` (section 6.2 of RFC 3561): there is no stored route, or
      its sequence number is not known, or the new sequence number is newer,
      or the numbers are equal and the new hop count is smaller.  A DOWN
      route carries INFINITY2, so any real hop count with the same sequence
      number replaces it.  Accepted information about a known number is
      never older than it, and with the same number it is strictly shorter;
      conversely a newer number, or the same one with fewer hops, is always
      accepted. */
  predicate Fresh(cur: Option<RtEntry>, seqnum: u32, metric: u16)
    ensures (cur.None? || !cur.value.validSeq) ==> Fresh(cur, seqnum, metric)
    ensures cur.Some? && SeqNewer(seqnum, cur.value.seqno) ==> Fresh(cur, seqnum, metric)
    ensures cur.Some? && seqnum == cur.value.seqno && metric < cur.value.hops ==> Fresh(cur, seqnum, metric)
    ensures Fresh(cur, seqnum, metric) && cur.Some? && cur.value.validSeq ==>
              && !SeqNewer(cur.value.seqno, seqnum)
              && (seqnum == cur.value.seqno ==> metric < cur.value.hops)
  {
    || cur.None?
    || !cur.value.validSeq
    || SeqNewer(seqnum, cur.value.seqno)
    || (seqnum == cur.value.seqno && metric < cur.value.hops)
  }

  /** Stale information about a known sequence number is refused: an older
      number, or the same one with no fewer hops.  While the number is not
      known, any information is accepted. */
  lemma StaleIsRefused(e: RtEntry, seqnum: u32, metric: u16)
    requires SeqNewer(e.seqno, seqnum) || (seqnum == e.seqno && metric >= e.hops)
    ensures e.validSeq ==> !Fresh(Some(e), seqnum, metric)
    ensures !e.validSeq ==> Fresh(Some(e), seqnum, metric)
  {
  }

  /** After `rt_down`, the same sequence number with a real hop count is
      accepted again. */
  lemma DownRouteAcceptsSameSeq(e: RtEntry, metric: u16)
    requires EntryOk(e) && metric < INFINITY2
    ensures Fresh(Some(RtDown(e)), e.seqno, metric)
  {
  }

  /** Looks the destination up, creates an entry for it if there is none,
      and applies `rt_update` only when the information is fresh.  A route
      found ends the discovery for it: the request count, last TTL and
      request timeout start over, so a later loss gets a full discovery.
      Returns the new table and whether the update was applied. */
  function GuardedUpdate(t: Table, dst: Addr, seqnum: u32, metric: u16, nexthop: Addr, expireTime: real)
    : (r: (Table, bool))
    requires TableOk(t)
    ensures TableOk(r.0)
    ensures r.1 <==> Fresh(RtLookup(t, dst), seqnum, metric)
    ensures dst in r.0 && r.0.Keys == t.Keys + {dst}
    ensures forall d :: d in t && d != dst ==> r.0[d] == t[d]
    ensures r.1 ==> r.0[dst].flag == Up && r.0[dst].seqno == seqnum && r.0[dst].validSeq
                    && r.0[dst].hops == metric && r.0[dst].nexthop == nexthop
                    && r.0[dst].expire == expireTime
    ensures r.1 ==> r.0[dst].reqCnt == 0 && r.0[dst].reqLastTtl == 0 && r.0[dst].reqTimeout == 0.0
    ensures r.1 && dst in t ==> r.0[dst].lastHopCount == t[dst].lastHopCount
                                && r.0[dst].precursors == t[dst].precursors
                                && r.0[dst].nbList == t[dst].nbList
                                && r.0[dst].discLatency == t[dst].discLatency
                                && r.0[dst].histIndx == t[dst].histIndx
    ensures r.1 && dst !in t ==> r.0[dst].lastHopCount == INFINITY2
    ensures !r.1 ==> r.0 == t
  {
    var cur := RtLookup(t, dst);
    if !Fresh(cur, seqnum, metric) then (t, false)
    else
      var e := if cur.Some? then cur.value else NewEntry(dst);
      var up := RtUpdate(e, seqnum, metric, nexthop, expireTime);
      (RtStore(t, up.(reqCnt := 0, reqLastTtl := 0, reqTimeout := 0.0)), true)
  }

  /** An entry `rt_add` has just created holds no known sequence number, so
      the first route information for it is applied whatever its number. */
  lemma AddedEntryAcceptsAnySeq(t: Table, dst: Addr, seqnum: u32, metric: u16, nexthop: Addr, expireTime: real)
    requires TableOk(t) && dst !in t
    ensures RtAdd(t, dst).Some?
    ensures GuardedUpdate(RtAdd(t, dst).value, dst, seqnum, metric, nexthop, expireTime).1
  {
  }

  /** For a route with a known sequence number, information with a newer
      number, or with the same number and fewer hops, is applied: the route
      now goes through the new next hop with the new number and hop count. */
  lemma NewerIsApplied(t: Table, dst: Addr, seqnum: u32, metric: u16, nexthop: Addr, expireTime: real)
    requires TableOk(t) && dst in t && t[dst].validSeq
    requires SeqNewer(seqnum, t[dst].seqno) || (seqnum == t[dst].seqno && metric < t[dst].hops)
    ensures GuardedUpdate(t, dst, seqnum, metric, nexthop, expireTime).1
    ensures var r := GuardedUpdate(t, dst, seqnum, metric, nexthop, expireTime).0;
      r[dst].nexthop == nexthop && r[dst].seqno == seqnum && r[dst].hops == metric && r[dst].flag == Up
  {
  }

  /** Guarded updates never move a known sequence number backwards: it stays
      known, and the new one equals the old one or is newer than it. */
  lemma GuardedUpdateMonotone(t: Table, dst: Addr, seqnum: u32, metric: u16, nexthop: Addr, expireTime: real)
    requires TableOk(t) && dst in t
    ensures var r := GuardedUpdate(t, dst, seqnum, metric, nexthop, expireTime).0;
      t[dst].validSeq ==>
        && r[dst].validSeq
        && !SeqNewer(t[dst].seqno, r[dst].seqno)
        && (r[dst].seqno == t[dst].seqno || SeqNewer(r[dst].seqno, t[dst].seqno))
  {
  }

  /** Information with an older sequence number than a known one never
      changes the next hop (nor anything else) of a stored route. */
  lemma OlderNeverRedirects(t: Table, dst: Addr, seqnum: u32, metric: u16, nexthop: Addr, expireTime: real)
    requires TableOk(t) && dst in t
    requires SeqNewer(t[dst].seqno, seqnum)
    ensures t[dst].validSeq ==> GuardedUpdate(t, dst, seqnum, metric, nexthop, expireTime).0 == t
    ensures t[dst].validSeq ==>
              GuardedUpdate(t, dst, seqnum, metric, nexthop, expireTime).0[dst].nexthop == t[dst].nexthop
  {
  }
}

=== FILE: rqueue.dfy ===
/**
  The "drop-front" queue that buffers packets for destinations without a
  route: packets are appended at the tail; when the queue is full the
  oldest packet is dropped to make room; a destination's packets are taken
  out one at a time, oldest first.
 */
module PendingQueue {
  import opened Types

  /** A buffered packet: its destination and an identity to tell packets apart. */
  datatype Packet = Packet(dst: Addr, uid: nat)

  type Queue = seq<Packet>

  /** The packets of `q` bound for `dst`, in arrival order. */
  function For(q: Queue, dst: Addr): (r: Queue)
    ensures |r| <= |q|
    ensures forall p :: p in r <==> p in q && p.dst == dst
  {
    if q == [] then []
    else if q[0].dst == dst then [q[0]] + For(q[1..], dst)
    else For(q[1..], dst)
  }

  /** The packets of `q` bound anywhere but `dst`, in arrival order. */
  function Except(q: Queue, dst: Addr): (r: Queue)
    ensures |r| <= |q|
    ensures forall p :: p in r <==> p in q && p.dst != dst
  {
    if q == [] then []
    else if q[0].dst != dst then [q[0]] + Except(q[1..], dst)
    else Except(q[1..], dst)
  }

  lemma {:induction false} ForDistributes(a: Queue, b: Queue, dst: Addr)
    ensures For(a + b, dst) == For(a, dst) + For(b, dst)
    ensures Except(a + b, dst) == Except(a, dst) + Except(b, dst)
    decreases |a|
  {
    if a != [] {
      assert (a + b)[1..] == a[1..] + b;
      ForDistributes(a[1..], b, dst);
    } else {
      assert a + b == b;
    }
  }

  /** Appends `p`; if the queue already holds `limit` packets its head is
      dropped first and returned. */
  function Enque(q: Queue, p: Packet, limit: nat): (r: (Queue, Option<Packet>))
    requires 0 < limit && |q| <= limit
    ensures |r.0| <= limit
    ensures |r.0| > 0 && r.0[|r.0| - 1] == p
    ensures |q| < limit ==> r.1.None? && r.0 == q + [p]
    ensures |q| == limit ==> r.1 == Some(q[0]) && r.0 == q[1..] + [p]
  {
    if |q| == limit then (q[1..] + [p], Some(q[0])) else (q + [p], None)
  }

  /** Below capacity, a destination's packets stay in arrival order with the
      new one last, and no other destination's packets change. */
  lemma EnqueKeepsOrder(q: Queue, p: Packet, limit: nat, dst: Addr)
    requires 0 < limit && |q| < limit
    ensures For(Enque(q, p, limit).0, dst) ==
              For(q, dst) + (if p.dst == dst then [p] else [])
  {
    ForDistributes(q, [p], dst);
  }

  /** The position of the oldest packet for `dst`. */
  function FirstIndex(q: Queue, dst: Addr): (i: nat)
    requires For(q, dst) != []
    ensures i < |q| && q[i].dst == dst
    ensures forall j :: 0 <= j < i ==> q[j].dst != dst
  {
    if q[0].dst == dst then 0 else 1 + FirstIndex(q[1..], dst)
  }

  /** Removes and returns the oldest packet for `dst`, if there is one; the
      packets before and after it stay where they were. */
  function Deque(q: Queue, dst: Addr): (r: (Option<Packet>, Queue))
    ensures r.0.None? <==> For(q, dst) == []
    ensures r.0.Some? ==> r.0.value == For(q, dst)[0]
    ensures r.0.Some? ==> var i := FirstIndex(q, dst);
              r.0.value == q[i] && r.1 == q[..i] + q[i + 1..]
    ensures r.0.Some? ==> |r.1| == |q| - 1
    ensures r.0.None? ==> r.1 == q
    ensures For(r.1, dst) == if r.0.Some? then For(q, dst)[1..] else For(q, dst)
    ensures Except(r.1, dst) == Except(q, dst)
  {
    if q == [] then (None, q)
    else if q[0].dst == dst then (Some(q[0]), q[1..])
    else
      var (p, rest) := Deque(q[1..], dst);
      assert p.Some? ==> [q[0]] + rest == q[..FirstIndex(q, dst)] + q[FirstIndex(q, dst) + 1..] by {
        if p.Some? {
          CutAfterHead(q, FirstIndex(q[1..], dst));
        }
      }
      (p, [q[0]] + rest)
  }

  /** Cutting one packet out of the tail is cutting the next one out of the
      whole queue. */
  lemma CutAfterHead(q: Queue, j: nat)
    requires j + 1 < |q|
    ensures [q[0]] + (q[1..][..j] + q[1..][j + 1..]) == q[..j + 1] + q[j + 2..]
  {
  }

  /** Dequeuing `dst` until nothing is left yields exactly its packets in
      arrival order and leaves every other destination's packets, in order. */
  function DrainFor(q: Queue, dst: Addr): (r: (seq<Packet>, Queue))
    ensures r.0 == For(q, dst)
    ensures r.1 == Except(q, dst)
    decreases |q|
  {
    var (p, rest) := Deque(q, dst);
    if p.None? then ExceptOfNoneIsSelf(q, dst); ([], q)
    else
      var (more, left) := DrainFor(rest, dst);
      assert [p.value] + more == For(q, dst);
      ([p.value] + more, left)
  }

  lemma {:induction false} ExceptOfNoneIsSelf(q: Queue, dst: Addr)
    requires For(q, dst) == []
    ensures Except(q, dst) == q
    decreases |q|
  {
    if q != [] {
      assert q[0] in q;
      assert q[0].dst != dst;
      assert For(q, dst) == For(q[1..], dst);
      ExceptOfNoneIsSelf(q[1..], dst);
      assert q == [q[0]] + q[1..];
    }
  }

  /** Once a destination's packets are removed, none is left for it. */
  lemma NoneLeftFor(q: Queue, dst: Addr)
    ensures For(Except(q, dst), dst) == []
  {
  }

  /** A dequeued packet is no longer buffered, provided packets are unique. */
  lemma {:induction false} DequeRemoves(q: Queue, dst: Addr)
    requires forall i, j :: 0 <= i < j < |q| ==> q[i] != q[j]
    ensures var (p, rest) := Deque(q, dst); p.Some? ==> p.value !in rest
    decreases |q|
  {
    if q != [] && q[0].dst != dst {
      DequeRemoves(q[1..], dst);
      var (p, rest) := Deque(q[1..], dst);
      if p.Some? {
        assert p.value in For(q[1..], dst);
        assert p.value in q[1..];
      }
    } else if q != [] {
      assert q[0] !in q[1..];
    }
  }
}

=== FILE: rtable.dfy ===
/**
  The route table entry and the route table: one entry per destination,
  each with its sequence number, hop count, next hop, state flag, request
  throttling state, a three-slot ring of discovery latencies, the set of
  precursors and the set of neighbours using the route.
 */
module RTable {
  import opened Types

  /** The hop count sentinel for an unknown or broken route. */
  const INFINITY2: u16 := 0xff

  /** Slots in the discovery-latency history ring. */
  const MAX_HISTORY: nat := 3

  /** The three route states; `FlagCode` gives their `rt_flags` byte. */
  datatype RouteFlag = Down | Up | InRepair

  /** RTF_DOWN = 0, RTF_UP = 1, RTF_IN_REPAIR = 2 */
  function FlagCode(f: RouteFlag): (b: u8)
    ensures b <= 2
    ensures (b == 0) == f.Down?
    ensures (b == 1) == f.Up?
  {
    match f
    case Down => 0
    case Up => 1
    case InRepair => 2
  }

  /** Reads an `rt_flags` byte back; only the three defined codes are states. */
  function DecodeFlag(b: u8): (r: Option<RouteFlag>)
    ensures r.Some? <==> b <= 2
    ensures r.Some? ==> FlagCode(r.value) == b
  {
    if b == 0 then Some(Down)
    else if b == 1 then Some(Up)
    else if b == 2 then Some(InRepair)
    else None
  }

  lemma FlagRoundTrip(f: RouteFlag)
    ensures DecodeFlag(FlagCode(f)) == Some(f)
  {
  }

  /** A neighbour cache entry: address and expiry time. */
  datatype Neighbor = Neighbor(addr: Addr, expire: real)

  /** A route table entry (`aorglu_rt_entry`). */
  datatype RtEntry = RtEntry(
    reqTimeout: real,         // earliest time another route request may go out
    reqCnt: u8,               // network-wide route requests sent
    dst: Addr,
    seqno: u32,
    validSeq: bool,           // whether seqno is known (section 6.1 of RFC 3561)
    hops: u16,                // INFINITY2 when unknown or broken
    lastHopCount: int,        // last valid hop count
    nexthop: Addr,
    precursors: set<Addr>,
    expire: real,
    flag: RouteFlag,
    discLatency: seq<real>,   // ring of the last MAX_HISTORY discovery latencies
    histIndx: int,            // next ring slot to write
    reqLastTtl: nat,          // TTL of the last route request, 0 before the first
    nbList: set<Addr>         // neighbours using this route
  )

  /** The structural invariant of an entry: the latency ring has exactly
      MAX_HISTORY slots, its index addresses one of them, and a DOWN route
      carries the INFINITY2 hop count. */
  predicate EntryOk(e: RtEntry) {
    && |e.discLatency| == MAX_HISTORY
    && 0 <= e.histIndx < MAX_HISTORY
    && (e.flag == Down ==> e.hops == INFINITY2)
  }

  /** A freshly created entry for `dst`: DOWN, sequence number 0 and not
      yet known, hop counts unknown, no request sent yet, an all-zero history
      written from slot 0, no precursors and no neighbours. */
  function NewEntry(dst: Addr): (e: RtEntry)
    ensures EntryOk(e)
    ensures e.dst == dst && e.flag == Down && FlagCode(e.flag) == 0
    ensures e.seqno == 0 && !e.validSeq
    ensures e.hops == INFINITY2 && e.lastHopCount == INFINITY2
    ensures e.reqCnt == 0 && e.reqLastTtl == 0 && e.reqTimeout == 0.0
    ensures e.discLatency == [0.0, 0.0, 0.0] && e.histIndx == 0
    ensures e.precursors == {} && e.nbList == {}
  {
    RtEntry(0.0, 0, dst, 0, false, INFINITY2, INFINITY2 as int, 0, {}, 0.0, Down,
            [0.0, 0.0, 0.0], 0, 0, {})
  }

  /* ---------------- neighbours using the route ---------------- */

  predicate NbLookup(e: RtEntry, a: Addr) {
    a in e.nbList
  }

  /** Records that neighbour `a` uses this route. */
  function NbInsert(e: RtEntry, a: Addr): (r: RtEntry)
    ensures NbLookup(r, a)
    ensures forall b :: b != a ==> (NbLookup(r, b) <==> NbLookup(e, b))
    ensures r.(nbList := e.nbList) == e
  {
    e.(nbList := e.nbList + {a})
  }

  /* ---------------- precursors ---------------- */

  predicate PcLookup(e: RtEntry, a: Addr) {
    a in e.precursors
  }

  predicate PcEmpty(e: RtEntry) {
    e.precursors == {}
  }

  /** Adds precursor `a`; adding one already present changes nothing. */
  function PcInsert(e: RtEntry, a: Addr): (r: RtEntry)
    ensures PcLookup(r, a)
    ensures forall b :: b != a ==> (PcLookup(r, b) <==> PcLookup(e, b))
    ensures PcLookup(e, a) ==> r == e
    ensures !PcEmpty(r)
    ensures r.(precursors := e.precursors) == e
  {
    e.(precursors := e.precursors + {a})
  }

  /** Removes precursor `a`; every other precursor remains. */
  function PcDelete(e: RtEntry, a: Addr): (r: RtEntry)
    ensures !PcLookup(r, a)
    ensures forall b :: b != a ==> (PcLookup(r, b) <==> PcLookup(e, b))
    ensures !PcLookup(e, a) ==> r == e
    ensures r.(precursors := e.precursors) == e
  {
    e.(precursors := e.precursors - {a})
  }

  /** Removes every precursor. */
  function PcDeleteAll(e: RtEntry): (r: RtEntry)
    ensures PcEmpty(r)
    ensures forall b :: !PcLookup(r, b)
    ensures r.(precursors := e.precursors) == e
  {
    e.(precursors := {})
  }

  lemma PcInsertDeleteRoundTrip(e: RtEntry, a: Addr)
    requires !PcLookup(e, a)
    ensures PcDelete(PcInsert(e, a), a) == e
  {
    assert PcDelete(PcInsert(e, a), a).precursors == e.precursors;
  }

  /* ---------------- discovery latency history ---------------- */

  /** Writes one discovery latency into the slot `histIndx` names and moves
      the index to the next slot modulo MAX_HISTORY. */
  function RecordLatency(e: RtEntry, sample: real): (r: RtEntry)
    requires EntryOk(e)
    ensures EntryOk(r)
    ensures r.discLatency[e.histIndx] == sample
    ensures forall k :: 0 <= k < MAX_HISTORY && k != e.histIndx ==>
              r.discLatency[k] == e.discLatency[k]
    ensures r.histIndx == if e.histIndx == MAX_HISTORY - 1 then 0 else e.histIndx + 1
    ensures r.(discLatency := e.discLatency, histIndx := e.histIndx) == e
  {
    e.(discLatency := e.discLatency[e.histIndx := sample],
       histIndx := (e.histIndx + 1) % MAX_HISTORY)
  }

  /** Three recordings in a row bring the index back to where it was and
      leave the ring holding exactly those three samples, oldest first from
      that index on. */
  lemma {:induction false} HistoryHoldsLastThree(e: RtEntry, s0: real, s1: real, s2: real)
    requires EntryOk(e)
    ensures var r := RecordLatency(RecordLatency(RecordLatency(e, s0), s1), s2);
      && r.histIndx == e.histIndx
      && r.discLatency[e.histIndx] == s0
      && r.discLatency[(e.histIndx + 1) % MAX_HISTORY] == s1
      && r.discLatency[(e.histIndx + 2) % MAX_HISTORY] == s2
  {
    var r1 := RecordLatency(e, s0);
    var r2 := RecordLatency(r1, s1);
    var r3 := RecordLatency(r2, s2);
    assert r1.histIndx == (e.histIndx + 1) % MAX_HISTORY;
    assert r2.histIndx == (e.histIndx + 2) % MAX_HISTORY;
    assert r3.histIndx == e.histIndx;
  }

  /* ---------------- the table ---------------- */

  /** The route table: at most one entry per destination, by construction. */
  type Table = map<Addr, RtEntry>

  /** Each entry is stored under its own destination and is well formed. */
  predicate TableOk(t: Table) {
    forall d :: d in t ==> t[d].dst == d && EntryOk(t[d])
  }

  function RtLookup(t: Table, id: Addr): (r: Option<RtEntry>)
    requires TableOk(t)
    ensures r.Some? <==> id in t
    ensures r.Some? ==> r.value.dst == id && EntryOk(r.value)
  {
    if id in t then Some(t[id]) else None
  }

  /** Adds a fresh entry for `id`; adding a destination already in the table
      is refused (the caller is expected to look it up first). */
  function RtAdd(t: Table, id: Addr): (r: Option<Table>)
    requires TableOk(t)
    ensures r.None? <==> id in t
    ensures r.Some? ==> TableOk(r.value)
    ensures r.Some? ==> RtLookup(r.value, id) == Some(NewEntry(id))
    ensures r.Some? ==> r.value.Keys == t.Keys + {id}
    ensures r.Some? ==> forall d :: d in t ==> r.value[d] == t[d]
  {
    if id in t then None else Some(t[id := NewEntry(id)])
  }

  /** Removes the entry for `id`, if any; every other entry is untouched. */
  function RtDelete(t: Table, id: Addr): (r: Table)
    requires TableOk(t)
    ensures TableOk(r)
    ensures RtLookup(r, id).None?
    ensures r.Keys == t.Keys - {id}
    ensures forall d :: d in r ==> r[d] == t[d]
  {
    t - {id}
  }

  /** Deleting what was just added gives the table back. */
  lemma AddDeleteRoundTrip(t: Table, id: Addr)
    requires TableOk(t) && id !in t
    ensures RtAdd(t, id).Some?
    ensures RtDelete(RtAdd(t, id).value, id) == t
  {
    assert RtDelete(RtAdd(t, id).value, id).Keys == t.Keys;
  }

  /** Replaces the entry stored for its own destination. */
  function RtStore(t: Table, e: RtEntry): (r: Table)
    requires TableOk(t) && EntryOk(e)
    ensures TableOk(r)
    ensures RtLookup(r, e.dst) == Some(e)
    ensures r.Keys == t.Keys + {e.dst}
    ensures forall d :: d in t && d != e.dst ==> r[d] == t[d]
  {
    t[e.dst := e]
  }
}

=== FILE: types.dfy ===
/**
  Scalar types shared by the routing tables: the fixed-width unsigned
  integers the agent declares its fields with, node addresses, and an
  optional value for lookups that may find nothing.
 */
module Types {

  /** u_int8_t */
  type u8 = x: int | 0 <= x < 0x100

  /** u_int16_t */
  type u16 = x: int | 0 <= x < 0x1_0000

  /** u_int32_t */
  type u32 = x: int | 0 <= x < 0x1_0000_0000

  const TWO_TO_32: int := 0x1_0000_0000

  /** nsaddr_t: addresses are only compared for equality, never computed with. */
  type Addr = int

  /** The result of a lookup: the simulator returns a pointer or NULL. */
  datatype Option<+T> = None | Some(value: T)
}
